=== FILE: README.md ===
# Image-effect pipeline of the jokerfilter page, modelled in Dafny

The page script lets a user upload a photo, sends it to a remote rendering
service that applies an effect, polls the job until it ends, shows the result
and offers it for download. This project models the decision logic of that
pipeline in `script.js`, with every network, timer, canvas and DOM call
replaced by an input that says how it ended:

- `nanoid.dfy` — `generateNanoId`: the identifier alphabet and the counted
  loop that spells an identifier from caller-supplied random draws.
- `upload.dfy` — `uploadFile`: the file extension (`split('.').pop() || 'jpg'`),
  the key `media/<id>.<ext>`, the public URL on `https://assets.dressr.ai/`,
  and the two requests that must both succeed.
- `jobs.dfy` — `submitImageGenJob`'s fixed request record and `pollJobStatus`:
  a loop of at most 60 status queries over a script of responses, with the
  `PROCESSING... (k)` progress labels.
- `resolve.dfy` — result extraction in `handleGenerate`: array-or-object
  result, `mediaUrl || image` with JavaScript truthiness.
- `download.dfy` — the download handler: extension inference, file name,
  and which of blob save, canvas re-encode, alert or new tab acts.
- `controller.dfy` — `currentUploadedUrl` and the generate, reset and download
  buttons: the pure effect of each handler on a `Controls` snapshot, and the
  class `PipelineController` whose methods update the same state in place.
- `js.dfy`, `wrappers.dfy` — the JavaScript value semantics used above
  (JSON values, truthiness, `||`, `?.`, `String(v)`, `includes`, `/…/i`)
  and `Option`/`Result`.

Behaviours of the code worth noting:

- There is no stale-response guard: a job that completes after a reset is
  still shown and offered for download (`LateCompletionAfterResetIsShown`).
- After a failed generation the pipeline does not release every control:
  `showError` re-enables generate only, so reset stays disabled
  (`GenerateFailureKeepsAssetAndResetDisabled`).
- A failed upload does not return to an empty state: the previous upload,
  if any, stays current (`UploadOutcome`).
- When the canvas tier's `toBlob` yields no blob the handler only alerts; it
  does not fall through to opening a tab (`ChooseDownload`).
- The content-type test `includes('png')` is case-sensitive; only the URL
  test `/\.png/i` ignores case (`ContentTypeTestIsCaseSensitive`).
- An upload that settles while a job is awaited re-enables generate, on
  success through `enableGenerateButton` and on failure through `showError`,
  so a second job can be started before the first ends
  (`UploadDuringGenerateReenablesTriggers`).
- A reset while a download awaits `fetch` removes `data-url`, and the
  download handler's `finally` then enables the download button without one
  (`ResetDuringDownloadEnablesButtonWithoutUrl`).
- Any status other than `completed`, `failed` and `error`, including an
  unknown one or none, keeps polling (`UnrecognisedStatusKeepsPolling`).
- `updateStatus('SUBMITTING JOB...')` runs before generate is disabled, so
  that label reaches the button only if it was already disabled
  (`GenerateStartDisablesTriggers`).

## Model

| member | source | states |
|---|---|---|
| `Js.Truthy` | script.js:343 | `undefined`, `null`, `false`, `0` and `""` are falsy; every other JSON value is truthy |
| `Js.Member` | script.js:363-364 | `v?.key` is the own field of a JSON object, and `undefined` for any other value or a missing key |
| `Js.JsString` | script.js:305 | `String(v)` of a JSON value: the string itself, `null`, `true`/`false`, the decimal numeral, comma-joined arrays, `[object Object]` |
| `Js.Or` | script.js:364 | `a \|\| b` is `a` when `a` is truthy and `b` otherwise, so it is truthy exactly when one of them is |
| `Js.NatToString` | script.js:309 | the attempt number is written as decimal digits with no leading zero |
| `Js.NatToStringRoundTrip` | script.js:309 | the numeral written into a progress label reads back as the attempt number |
| `Js.ContainsIffOccurs` | script.js:489-491 | `s.includes(t)` holds exactly when `t` occurs at some position of `s` |
| `Js.Contains` | script.js:489-491 | `s.includes(t)`: `t` is a prefix of `s` or occurs in its tail |
| `Js.MatchesIgnoringCase` | script.js:489-491 | `s.match(/p/i)` is truthy when the lower-cased `s` contains the lower-case pattern |
| `Js.ContainsFolds` | script.js:489-491 | an occurrence in any letter case is found by the case-insensitive match |
| `NanoId.AlphabetChars` | script.js:191 | the alphabet is the 26 upper-case letters, the 26 lower-case letters, then the 10 digits |
| `NanoId.AlphabetIsAlphanumeric` | script.js:191 | the alphabet has 62 distinct symbols and holds exactly the alphanumeric characters |
| `NanoId.GenerateNanoId` | script.js:190-197 | the loop returns exactly `length` characters, the k-th being the alphabet symbol of the k-th draw |
| `NanoId.IdOf` | script.js:190-197 | the identifier a sequence of draws spells: the k-th character is the alphabet symbol at the k-th draw |
| `NanoId.IdShape` | script.js:190-197 | an identifier has one character per draw and only alphanumeric characters |
| `NanoId.IdOfInjective` | script.js:190-197 | different draws of the same length give different identifiers |
| `Upload.AfterLastDot` | script.js:201 | `split('.').pop()` is the longest dot-free suffix: the text after the last dot, or the whole name |
| `Upload.FileExtension` | script.js:201 | the extension is never empty and never contains a dot; it is the text after the last dot when that is non-empty, and `jpg` otherwise |
| `Upload.ExtensionIsLastSegment` | script.js:201 | a name whose last dot is followed by text has that text as its extension: `photo.png` gives `png` |
| `Upload.NameWithoutDotIsItsOwnExtension` | script.js:201 | a non-empty name without a dot is its own extension |
| `Upload.DefaultExtensionOnlyForEmptyLastSegment` | script.js:201 | `jpg` comes out only for an empty name, a name ending in a dot, or a name whose own extension is `jpg` |
| `Upload.UploadFile` | script.js:200-235 | a URL is returned exactly when both the signed-URL request and the PUT succeed |
| `Upload.UploadKey` | script.js:203 | the storage key is `media/`, the identifier, a dot and the extension |
| `Upload.PublicUrl` | script.js:232 | the public URL is `https://assets.dressr.ai/` followed by the key |
| `Upload.SignedUrlFailureSkipsPut` | script.js:211-219 | when the signed URL is refused the PUT's outcome does not matter: it is never sent |
| `Upload.UploadedUrlShape` | script.js:201-203 | the URL is `https://assets.dressr.ai/media/`, 21 alphanumeric characters, a dot, the file's extension, and its last dot-segment is that extension |
| `Upload.PublicUrlShape` | script.js:232 | the read URL of `media/<id>.<ext>` taken apart into host, prefix, identifier, dot and extension |
| `Upload.SuffixAfterDot` | script.js:201 | after a dot, a dot-free tail is exactly what `split('.').pop()` returns |
| `Jobs.JobRequestFor` | script.js:249-257 | the job body carries the given image URL, the fixed user, and watermark removal and privacy switched on |
| `Jobs.FixedJobConfiguration` | script.js:249-257 | two submissions differ only in the image URL |
| `Jobs.ReadJson` | script.js:259-271 | the job submission, like each status query, yields data exactly when it was answered with a parsable 2xx body |
| `Jobs.Classify` | script.js:293-313 | one pass of the loop: `Done` exactly for a body whose status is `completed`, with that data; a request failure exactly for a failed, non-OK, unparsable or `null` reply; a job failure exactly for status `failed`/`error`; never a timeout |
| `Jobs.ClassifyVerdicts` | script.js:293-301 | a rejected `fetch`, a non-OK reply (with its status text), an unparsable body and a `null` body each throw their request error; status `completed` returns the data |
| `Jobs.RemoteFailureMessage` | script.js:304-306 | `failed`/`error` throws `data.error` when truthy, `Job processing failed` otherwise |
| `Jobs.UnrecognisedStatusKeepsPolling` | script.js:300-313 | any other or missing status means the job is still running |
| `Jobs.Poll` | script.js:278-317 | `pollJobStatus` makes at least one and at most 60 queries, and times out only after 60 |
| `Jobs.PollFrom` | script.js:282-316 | polling makes at least one and at most 60 queries; a timeout comes only after 60 |
| `Jobs.ProgressLabelInjective` | script.js:309 | different attempt numbers give different progress labels |
| `Jobs.ProgressLabels` | script.js:309 | the k-th progress label is `PROCESSING... (k)`, and no two labels of a run are alike |
| `Jobs.PollJobStatus` | script.js:278-317 | the loop returns the polling outcome, and emitted `PROCESSING... (1)` … `(k)` in order, one per still-running response |
| `Jobs.PollSkipsPending` | script.js:282-314 | still-running responses are passed over one by one |
| `Jobs.PollStopsAtFirstVerdict` | script.js:293-306 | after still-running responses, the first reply with status `completed` returns its data, and the first failed, non-OK, unparsable or `null` reply throws its request error (a non-OK reply with its status text), in each case after exactly that many queries |
| `Jobs.PollTimesOut` | script.js:282-316 | sixty still-running responses end in a timeout after sixty queries |
| `Jobs.PollOutcomeDecidedByLastQuery` | script.js:282-316 | every response before the last query said "still running" and the last query decided the outcome |
| `Jobs.TimeoutOnlyAfterSixtyPending` | script.js:276-316 | a timeout is raised only after sixty consecutive still-running responses, never earlier |
| `Jobs.PollIgnoresLaterResponses` | script.js:300-306 | no query is made after the deciding one: later responses cannot change the outcome |
| `Resolve.ResultItem` | script.js:363 | an array result is replaced by its first element, `undefined` when it is empty; any other result is kept |
| `Resolve.ResolveResultUrl` | script.js:363-368 | a resolved URL is truthy; the only error is `No image URL in response` |
| `Resolve.MediaUrlTakesPrecedence` | script.js:364-367 | for any job data whose `result` is an object: a truthy `mediaUrl` wins over anything in `image`; else a truthy `image`; else the error |
| `Resolve.ArrayResolvesThroughFirstElement` | script.js:363 | for any job data whose `result` is a non-empty array: it resolves as data whose `result` is the first element, and arrays are unwrapped only once |
| `Resolve.EmptyArrayIsMalformed` | script.js:363-367 | any job data whose `result` is an empty array raises `No image URL in response` |
| `Resolve.ResultWithoutObjectIsMalformed` | script.js:363-367 | job data without a `result`, or with a `result` that is neither object nor array, raises `No image URL in response` |
| `Resolve.EitherSchemaEitherField` | script.js:362-364 | object or one-element array, `mediaUrl` or `image`: the same URL comes out |
| `Download.InferExtension` | script.js:487-493 | `png` exactly when the content type or the URL names `png`; `webp` exactly when neither names `png` and one names `webp`; otherwise `jpg` |
| `Download.Names` | script.js:489-491 | evidence for a format: the content type, empty when missing, contains its name, or the URL matches a dot and the name in any case |
| `Download.PngTakesPrecedence` | script.js:489-493 | `png` evidence in the content type or the URL wins over `webp` |
| `Download.JpgOnlyWithoutEvidence` | script.js:487-493 | `jpg` exactly when neither format is named by the content type or the URL |
| `Download.ExtensionFromUrlSuffix` | script.js:487-493 | with no content type, a URL ending in `.png` (any case) gives `png`, and one ending in `.webp` gives `webp` provided `.png` occurs nowhere in it (`a.png.webp` gives `png`) |
| `Download.ContentTypeTestIsCaseSensitive` | script.js:489-491 | `image/PNG` alone gives `jpg`: the content-type test is case-sensitive |
| `Download.NotContained` | script.js:489-491 | a string lacking the pattern's first character does not contain the pattern |
| `Download.DownloadFileName` | script.js:498 | the name is `jokerfilter_`, the 8-character identifier spelt by the draws, a dot and the extension, which is its last dot-segment |
| `Download.ChooseDownload` | script.js:472-536 | blob save, named `jokerfilter_<id>.<inferred extension>`, iff tier 1 worked; canvas PNG named `jokerfilter_<id>.png` iff tier 1 failed, the image is ready, the canvas did not throw and a blob came; alert only when that blob is null; new tab, with the original URL, iff tier 1 failed and the canvas tier was skipped or threw |
| `Download.TiersAreOrdered` | script.js:505-536 | once tier 1 works the image and canvas are irrelevant; a canvas tier that started never opens a tab |
| `Controller.ErrorShown` | script.js:140-149 | `showError` enables generate with label `Clownify Me!` and touches nothing else |
| `Controller.StatusShown` | script.js:129-138 | `updateStatus` sets the generate label only while generate is disabled |
| `Controller.UploadStarted` | script.js:324-327 | the file-select handler disables generate with label `Uploading...` before awaiting the upload |
| `Controller.UploadFinished` | script.js:330-338 | a settled upload becomes the current URL and runs `enableGenerateButton`, or goes to `showError` |
| `Controller.GenerateStarted` | script.js:346-351 | the status `SUBMITTING JOB...`, then generate and reset disabled |
| `Controller.GenerateFinished` | script.js:373-387 | a resolved URL is offered for download and enables every button; an error goes to `showError` |
| `Controller.GenerateRun` | script.js:342-388 | a whole uninterrupted generate: nothing without an upload, otherwise start then finish with `GenerateResult` |
| `Controller.ResetDone` | script.js:428-458 | the reset handler's effect on the pipeline state and the three buttons |
| `Controller.DownloadStarted` | script.js:468-470 | the download label becomes `Downloading...` and the button is disabled |
| `Controller.DownloadFinished` | script.js:537-540 | the `finally` restores the label found and enables the button |
| `Controller.DownloadClicked` | script.js:464-541 | an uninterrupted click: nothing without a `data-url`, otherwise start then `finally` |
| `Controller.GenerateResult` | script.js:354-368 | a run yields a URL exactly when the job was accepted with a non-null body, polling completed, and a URL was resolved; that URL is the one resolved from the completed job's data |
| `Controller.DownloadConsistencyPreserved` | script.js:179-185 | each handler step keeps "an enabled download button has a `data-url`", the download handler's `finally` only while `data-url` is still there |
| `Controller.ResetDuringDownloadEnablesButtonWithoutUrl` | script.js:455-457 | a reset between the download handler's start and its `finally` leaves the download button enabled with no `data-url`, and a click on it does nothing |
| `Controller.GenerateWithoutUploadIsNoOp` | script.js:343 | without a current upload, generate changes nothing |
| `Controller.UploadOutcome` | script.js:321-340 | the whole file-select handler: a successful upload sets the current URL, enables reset and re-enables generate with its idle label, and changes nothing else; a failed one has exactly `showError`'s effect, so the previous upload stays current |
| `Controller.LastCompletedUploadWins` | script.js:330-331 | of two uploads in flight the last to complete sets the current URL; a later failure of any kind keeps it |
| `Controller.ErrorReenablesGenerate` | script.js:145-148 | `showError` enables generate with label `Clownify Me!` and changes nothing else |
| `Controller.GenerateStartDisablesTriggers` | script.js:346-351 | `GenerateStarted` disables both generate and reset; `SUBMITTING JOB...` reaches the button only if generate was already disabled |
| `Controller.GenerateFailureKeepsAssetAndResetDisabled` | script.js:385-387 | a failed run keeps the uploaded URL, re-enables generate and leaves reset disabled and the download button as it was |
| `Controller.GenerateSuccessOffersDownload` | script.js:373-383 | a successful run stores the string form of the URL resolved from the job as `data-url` and enables download, generate and reset |
| `Controller.ResetClearsEverything` | script.js:428-458 | reset forgets the upload and `data-url`, disables all three buttons, sets the generate label to `Clownify Me!` and keeps the download label; twice is once |
| `Controller.UploadDuringGenerateReenablesTriggers` | script.js:161-169 | an upload settling during a run re-enables generate whatever its outcome, and reset when it succeeds, so a second run or a reset can start mid-run |
| `Controller.LateCompletionAfterResetIsShown` | script.js:359-383 | a completion arriving after reset is still offered for download: there is no stale-response guard |
| `Controller.DownloadRestoresButton` | script.js:465-540 | without a URL nothing changes; otherwise the label found is restored and the button enabled |
| `Controller.ScriptedSessionOffersResult` | script.js:321-387 | upload, then `queued`, `processing`, `completed` with `mediaUrl` `https://x/y.png`, ends with exactly that URL offered for download |
| `Controller.PipelineController.constructor` | script.js:114 | no upload is current at start; the buttons are as the markup sets them |
| `Controller.PipelineController.ShowError` | script.js:140-149 | the new state is `ErrorShown` of the old |
| `Controller.PipelineController.UpdateStatus` | script.js:129-138 | the generate label becomes the status only while generate is disabled |
| `Controller.PipelineController.StartFileSelect` | script.js:324-327 | generate is disabled with label `Uploading...` |
| `Controller.PipelineController.FinishFileSelect` | script.js:330-338 | the new state is `UploadFinished` of the old and the upload's outcome |
| `Controller.PipelineController.HandleFileSelect` | script.js:321-340 | an uninterrupted file selection has the effect of start then finish with `UploadFile`'s outcome |
| `Controller.PipelineController.StartGenerate` | script.js:342-354 | without an upload nothing happens and no request is sent; otherwise the request for the current URL is sent and the state is `GenerateStarted` |
| `Controller.PipelineController.FinishGenerate` | script.js:363-387 | the new state is `GenerateFinished` of the old and the run's outcome |
| `Controller.PipelineController.HandleGenerate` | script.js:342-388 | an uninterrupted run sends the request for the current URL and ends in `GenerateRun` of the old state |
| `Controller.PipelineController.Reset` | script.js:428-458 | the new state is `ResetDone` of the old |
| `Controller.PipelineController.StartDownloadClick` | script.js:465-470 | without a URL nothing changes; otherwise the URL and label found are returned and the state is `DownloadStarted` |
| `Controller.PipelineController.FinishDownloadClick` | script.js:537-540 | the new state is `DownloadFinished` of the old and the label found at the start |
| `Controller.PipelineController.HandleDownloadClick` | script.js:464-541 | acts iff `data-url` is truthy, with the tier `ChooseDownload` picks for that URL, and ends with the button enabled and its label restored |

## Left out

- Network requests, HTTP headers and bodies: each request is an input saying
  how it ended (`Upload.Reply`, `Jobs.Response`, `Download.BlobFetch`); the
  signed URL's text, the PUT's body and content type, and the polling URL
  built from `jobId` are not modelled.
- The 2000 ms wait between status queries and the 1000 ms delay before
  revoking a blob URL: only the number of queries is modelled.
- `Math.random` and its distribution: the draws are inputs in [0, 62).
- Canvas drawing, `toBlob`, `URL.createObjectURL`/`revokeObjectURL`, `alert`,
  `window.open` and the link click: represented only by the `DownloadAction`
  chosen. The canvas tier's blob callback runs after the `finally` block; the
  model records its effect together with the click.
- The texts built for request failures (`'Failed to …: ' + statusText`, the
  timeout message), the `'Error: '` prefix and the download alerts, and the
  `DEBUG` logging. The job's own failure text and `No image URL in response`
  are modelled.
- Visibility and text changes in `showLoading`, `hideLoading`, `showPreview`,
  `showResultMedia`, the loading text in `updateStatus`, the reset handler's
  image and file-input clearing, the drag-and-drop and file-input listeners
  that call `handleFileSelect`, the mobile menu, FAQ, modals and scroll
  animation: presentation without pipeline logic.
- Asynchronous interleaving is expressed only by applying the split handler
  effects (`UploadStarted`/`UploadFinished`, `GenerateStarted`/
  `GenerateFinished`, `DownloadStarted`/`DownloadFinished`, `ResetDone`) in
  any order; there is no scheduler.
- Controller.PipelineController.HandleGenerate: applies the progress labels
  after polling rather than between queries; the final state is the same,
  because the run's end overwrites the generate label either way.
- JSON numbers are integers; `String(n)` for magnitudes of 10^21 and more,
  which JavaScript writes in exponent form, is not modelled.
- `v?.key` is modelled for own keys of JSON objects only; the keys the
  pipeline reads (`status`, `error`, `result`, `mediaUrl`, `image`, `jobId`)
  are not properties of any built-in prototype.

=== FILE: controller.dfy ===
/**
 * The page's pipeline state, `currentUploadedUrl`, and the three buttons it
 * drives (generate, reset, download: enabled flag, label, and the download
 * button's `data-url`), with what the file-select, generate, reset and
 * download handlers and `showError` do to them.
 *
 * `Controls` is a snapshot of that state and the functions below are the
 * handlers' effects on it; `PipelineController` holds the same state in
 * fields its methods update, each method proved to have its function's effect.
 */
module Controller {
  import opened Wrappers
  import opened Js
  import NanoId
  import Upload
  import Jobs
  import Resolve
  import Download

  const GenerateLabel: string := "Clownify Me!"
  const UploadingLabel: string := "Uploading..."
  const SubmittingLabel: string := "SUBMITTING JOB..."
  const QueuedLabel: string := "JOB QUEUED..."
  const DownloadingLabel: string := "Downloading..."

  datatype Controls = Controls(
    uploadedUrl: Option<string>,   // currentUploadedUrl; None is null
    generateDisabled: bool,
    generateLabel: string,
    resetDisabled: bool,
    downloadDisabled: bool,
    downloadLabel: string,
    downloadUrl: Option<string>)   // downloadBtn.dataset.url; None when absent

  /** `showError`: generate is enabled again with its idle label; nothing else changes. */
  function ErrorShown(c: Controls): Controls {
    c.(generateDisabled := false, generateLabel := GenerateLabel)
  }

  /** `updateStatus(text)`: the generate label follows the status only while generate is disabled. */
  function StatusShown(c: Controls, text: string): Controls {
    if c.generateDisabled then c.(generateLabel := text) else c
  }

  /** `handleFileSelect`, before the upload is awaited. */
  function UploadStarted(c: Controls): Controls {
    c.(generateDisabled := true, generateLabel := UploadingLabel)
  }

  /**
   * `handleFileSelect`, once the upload settled: a URL becomes the current
   * upload and `enableGenerateButton` runs; a failure goes to `showError`.
   */
  function UploadFinished(c: Controls, r: Result<string, Upload.UploadError>): Controls {
    match r
    case Ok(url) =>
      c.(uploadedUrl := Some(url), generateDisabled := false, generateLabel := GenerateLabel, resetDisabled := false)
    case Err(_) => ErrorShown(c)
  }

  /** `!currentUploadedUrl` is false. */
  predicate HasUpload(c: Controls) {
    c.uploadedUrl.Some? && c.uploadedUrl.value != ""
  }

  /**
   * `handleGenerate` up to the submission: the `SUBMITTING JOB...` status is
   * shown before the buttons are disabled, then generate and reset are disabled.
   */
  function GenerateStarted(c: Controls): Controls {
    StatusShown(c, SubmittingLabel).(generateDisabled := true, resetDisabled := true)
  }

  /** Why the awaited part of `handleGenerate` threw. */
  datatype GenerateError =
    | SubmitFailed(cause: Jobs.RequestError)
    | PollFailed(error: Jobs.PollError)
    | Malformed(message: string)

  /**
   * The awaited part of `handleGenerate`: submit, read `jobData.jobId`, poll,
   * and extract the result URL.
   */
  function GenerateResult(submitReply: Jobs.Response, responses: seq<Jobs.Response>): (r: Result<Json, GenerateError>)
    requires Jobs.MaxPolls <= |responses|
    ensures r.Ok? ==> Jobs.Poll(responses).Completed? && Truthy(Some(r.value))
    ensures r.Ok? ==> Resolve.ResolveResultUrl(Jobs.Poll(responses).data) == Ok(r.value)
    ensures r.Ok? <==> submitReply.Body? && !submitReply.data.JNull? && Jobs.Poll(responses).Completed?
                       && Resolve.ResolveResultUrl(Jobs.Poll(responses).data).Ok?
  {
    match Jobs.ReadJson(submitReply)
    case Err(e) => Err(SubmitFailed(e))
    case Ok(jobData) =>
      if jobData.JNull? then Err(SubmitFailed(Jobs.NullBody))
      else
        match Jobs.Poll(responses)
        case Raised(e, _) => Err(PollFailed(e))
        case Completed(data, _) =>
          match Resolve.ResolveResultUrl(data)
          case Ok(url) => Ok(url)
          case Err(m) => Err(Malformed(m))
  }

  /**
   * `handleGenerate` once the job settled: a URL is shown and offered for
   * download (`data-url` holds its string form) and generate and reset are
   * enabled; an error goes to `showError`, which leaves reset disabled.
   */
  function GenerateFinished(c: Controls, r: Result<Json, GenerateError>): Controls {
    match r
    case Ok(url) =>
      c.(downloadUrl := Some(JsString(url)), downloadDisabled := false,
         generateLabel := GenerateLabel, generateDisabled := false, resetDisabled := false)
    case Err(_) => ErrorShown(c)
  }

  /** A whole `handleGenerate` run, start to finish, with nothing interleaved. */
  function GenerateRun(c: Controls, submitReply: Jobs.Response, responses: seq<Jobs.Response>): Controls
    requires Jobs.MaxPolls <= |responses|
  {
    if HasUpload(c) then GenerateFinished(GenerateStarted(c), GenerateResult(submitReply, responses)) else c
  }

  /** The reset handler. */
  function ResetDone(c: Controls): Controls {
    c.(uploadedUrl := None, generateDisabled := true, generateLabel := GenerateLabel, resetDisabled := true,
       downloadDisabled := true, downloadUrl := None)
  }

  /** `!downloadBtn.dataset.url` is false. */
  predicate HasDownloadUrl(c: Controls) {
    c.downloadUrl.Some? && c.downloadUrl.value != ""
  }

  /** The download handler up to its first `await`, once a URL was found: label `Downloading...`, button disabled. */
  function DownloadStarted(c: Controls): Controls {
    c.(downloadLabel := DownloadingLabel, downloadDisabled := true)
  }

  /** The download handler's `finally`: the label it found is restored and the button enabled. */
  function DownloadFinished(c: Controls, originalText: string): Controls {
    c.(downloadLabel := originalText, downloadDisabled := false)
  }

  /**
   * The download handler's effect on the controls when nothing runs while it
   * awaits: with no URL it returns at once; otherwise it starts and its
   * `finally` ends it, whichever tier acted.
   */
  function DownloadClicked(c: Controls): Controls {
    if HasDownloadUrl(c) then DownloadFinished(DownloadStarted(c), c.downloadLabel) else c
  }

  /** An enabled download button always has a `data-url` to act on. */
  predicate DownloadConsistent(c: Controls) {
    !c.downloadDisabled ==> c.downloadUrl.Some?
  }

  /**
   * Every handler step keeps the download button consistent, except the
   * download handler's `finally` when `data-url` vanished while it awaited.
   */
  lemma DownloadConsistencyPreserved(c: Controls, r: Result<string, Upload.UploadError>, g: Result<Json, GenerateError>,
                                     text: string)
    requires DownloadConsistent(c)
    ensures DownloadConsistent(UploadStarted(c)) && DownloadConsistent(UploadFinished(c, r))
    ensures DownloadConsistent(StatusShown(c, text)) && DownloadConsistent(ErrorShown(c))
    ensures DownloadConsistent(GenerateStarted(c)) && DownloadConsistent(GenerateFinished(c, g))
    ensures DownloadConsistent(ResetDone(c)) && DownloadConsistent(DownloadClicked(c))
    ensures DownloadConsistent(DownloadStarted(c))
    ensures c.downloadUrl.Some? ==> DownloadConsistent(DownloadFinished(c, text))
  {
  }

  /**
   * A reset while a download awaits `fetch` removes `data-url`, and the
   * `finally` then enables the download button anyway; a click on it does
   * nothing.
   */
  lemma ResetDuringDownloadEnablesButtonWithoutUrl(c: Controls)
    requires HasDownloadUrl(c)
    ensures var ended := DownloadFinished(ResetDone(DownloadStarted(c)), c.downloadLabel);
            && !DownloadConsistent(ended)
            && !ended.downloadDisabled && ended.downloadUrl.None?
            && DownloadClicked(ended) == ended
  {
  }

  /** `handleGenerate` does nothing at all while there is no uploaded URL. */
  lemma GenerateWithoutUploadIsNoOp(c: Controls, submitReply: Jobs.Response, responses: seq<Jobs.Response>)
    requires Jobs.MaxPolls <= |responses|
    requires !HasUpload(c)
    ensures GenerateRun(c, submitReply, responses) == c
  {
  }

  /**
   * A successful upload sets the current URL; a failed one leaves it as it
   * was. Both re-enable generate. The whole handler, start and settle
   * together, leaves everything else as it found it.
   */
  lemma UploadOutcome(c: Controls, r: Result<string, Upload.UploadError>)
    ensures r.Ok? ==> UploadFinished(UploadStarted(c), r)
                        == c.(uploadedUrl := Some(r.value), generateDisabled := false, generateLabel := GenerateLabel,
                              resetDisabled := false)
    ensures r.Err? ==> UploadFinished(UploadStarted(c), r) == ErrorShown(c)
    ensures UploadStarted(c).(generateDisabled := c.generateDisabled, generateLabel := c.generateLabel) == c
    ensures r.Ok? ==> UploadFinished(c, r).uploadedUrl == Some(r.value) && !UploadFinished(c, r).resetDisabled
    ensures r.Err? ==> UploadFinished(c, r).uploadedUrl == c.uploadedUrl && UploadFinished(c, r).resetDisabled == c.resetDisabled
    ensures !UploadFinished(c, r).generateDisabled && UploadFinished(c, r).generateLabel == GenerateLabel
  {
  }

  /**
   * Two uploads in flight at once: whichever completes last sets the current
   * URL, whatever order they were started in.
   */
  lemma LastCompletedUploadWins(c: Controls, first: string, second: string, e: Upload.UploadError)
    ensures UploadFinished(UploadFinished(UploadStarted(UploadStarted(c)), Ok(first)), Ok(second)).uploadedUrl == Some(second)
    ensures UploadFinished(UploadFinished(UploadStarted(UploadStarted(c)), Ok(first)), Err(e)).uploadedUrl == Some(first)
  {
  }

  /** `showError` enables generate with the label `Clownify Me!`. */
  lemma ErrorReenablesGenerate(c: Controls)
    ensures !ErrorShown(c).generateDisabled && ErrorShown(c).generateLabel == GenerateLabel
    ensures ErrorShown(c).(generateDisabled := c.generateDisabled, generateLabel := c.generateLabel) == c
  {
  }

  /**
   * Starting a run disables both generate and reset; the `SUBMITTING JOB...`
   * status reaches the button only if generate was already disabled when the
   * click arrived.
   */
  lemma GenerateStartDisablesTriggers(c: Controls)
    ensures GenerateStarted(c).generateDisabled && GenerateStarted(c).resetDisabled
    ensures GenerateStarted(c).generateLabel == (if c.generateDisabled then SubmittingLabel else c.generateLabel)
    ensures GenerateStarted(c).uploadedUrl == c.uploadedUrl && GenerateStarted(c).downloadUrl == c.downloadUrl
  {
  }

  /**
   * A failed generation keeps the uploaded asset and re-enables generate,
   * but leaves reset disabled: `showError` does not touch it.
   */
  lemma GenerateFailureKeepsAssetAndResetDisabled(c: Controls, submitReply: Jobs.Response, responses: seq<Jobs.Response>)
    requires Jobs.MaxPolls <= |responses|
    requires HasUpload(c) && GenerateResult(submitReply, responses).Err?
    ensures var d := GenerateRun(c, submitReply, responses);
            d.uploadedUrl == c.uploadedUrl && !d.generateDisabled && d.generateLabel == GenerateLabel
            && d.resetDisabled && d.downloadUrl == c.downloadUrl && d.downloadDisabled == c.downloadDisabled
  {
  }

  /** A successful generation offers the resolved URL for download and enables every button. */
  lemma GenerateSuccessOffersDownload(c: Controls, submitReply: Jobs.Response, responses: seq<Jobs.Response>)
    requires Jobs.MaxPolls <= |responses|
    requires HasUpload(c) && GenerateResult(submitReply, responses).Ok?
    ensures var d := GenerateRun(c, submitReply, responses);
            && d.downloadUrl == Some(JsString(Resolve.ResolveResultUrl(Jobs.Poll(responses).data).value))
            && !d.downloadDisabled && !d.generateDisabled && !d.resetDisabled
            && d.uploadedUrl == c.uploadedUrl && d.generateLabel == GenerateLabel
  {
  }

  /** Reset forgets the upload and the download URL and disables all three buttons; doing it twice is doing it once. */
  lemma ResetClearsEverything(c: Controls)
    ensures var d := ResetDone(c);
            d.uploadedUrl == None && d.downloadUrl == None && d.generateDisabled && d.resetDisabled && d.downloadDisabled
            && !HasUpload(d) && !HasDownloadUrl(d)
    ensures ResetDone(c).generateLabel == GenerateLabel && ResetDone(c).downloadLabel == c.downloadLabel
    ensures ResetDone(ResetDone(c)) == ResetDone(c)
  {
  }

  /**
   * A run disables generate and reset, but an upload settling meanwhile
   * re-enables generate whatever its outcome, and reset when it succeeds: a
   * second run or a reset can start before the first run ends.
   */
  lemma UploadDuringGenerateReenablesTriggers(c: Controls, url: string, r: Result<string, Upload.UploadError>)
    ensures GenerateStarted(c).resetDisabled
    ensures !UploadFinished(GenerateStarted(c), Ok(url)).resetDisabled
    ensures GenerateStarted(c).generateDisabled && !UploadFinished(GenerateStarted(c), r).generateDisabled
  {
  }

  /**
   * No stale-response guard: a job that completes after a reset is still
   * offered for download and re-enables generate and reset, although no
   * upload is current any more.
   */
  lemma LateCompletionAfterResetIsShown(c: Controls, url: Json)
    ensures var d := GenerateFinished(ResetDone(c), Ok(url));
            d.uploadedUrl == None && d.downloadUrl == Some(JsString(url))
            && !d.downloadDisabled && !d.generateDisabled && !d.resetDisabled
  {
  }

  /** The download handler changes nothing without a URL, and otherwise only leaves the button enabled. */
  lemma DownloadRestoresButton(c: Controls)
    ensures !HasDownloadUrl(c) ==> DownloadClicked(c) == c
    ensures HasDownloadUrl(c) ==> DownloadClicked(c) == c.(downloadDisabled := false)
    ensures DownloadClicked(c).downloadLabel == c.downloadLabel
  {
  }

  /** Completed-job status data with the given status and nothing else. */
  function StatusData(status: string): Json {
    JObj(map["status" := JStr(status)])
  }

  /**
   * A whole session: the upload succeeds, the job is accepted, polling sees
   * `queued`, then `processing`, then `completed` with `result.mediaUrl`
   * `https://x/y.png`; that exact URL ends up offered for download.
   */
  lemma ScriptedSessionOffersResult(c: Controls, fileName: string, draws: seq<nat>, responses: seq<Jobs.Response>)
    requires NanoId.DefaultLength <= |draws| && NanoId.ValidDraws(draws)
    requires Jobs.MaxPolls <= |responses|
    requires responses[0] == Jobs.Body(StatusData("queued"))
    requires responses[1] == Jobs.Body(StatusData("processing"))
    requires responses[2] == Jobs.Body(Resolve.WithResult(Resolve.ResultObject(Some(JStr("https://x/y.png")), None)))
    ensures var ready := UploadFinished(UploadStarted(c), Upload.UploadFile(fileName, draws, Upload.Accepted, Upload.Accepted));
            var done := GenerateRun(ready, Jobs.Body(JObj(map["jobId" := JStr("job-1")])), responses);
            && HasUpload(ready)
            && done.downloadUrl == Some("https://x/y.png")
            && !done.downloadDisabled && !done.generateDisabled && !done.resetDisabled
  {
    var ready := UploadFinished(UploadStarted(c), Upload.UploadFile(fileName, draws, Upload.Accepted, Upload.Accepted));
    var submitReply := Jobs.Body(JObj(map["jobId" := JStr("job-1")]));
    ScriptedUploadIsCurrent(c, fileName, draws);
    ScriptedRunResolves(responses);
    assert GenerateRun(ready, submitReply, responses) == GenerateFinished(GenerateStarted(ready), Ok(JStr("https://x/y.png")));
  }

  /** The accepted upload of the session becomes the current, non-empty upload. */
  lemma ScriptedUploadIsCurrent(c: Controls, fileName: string, draws: seq<nat>)
    requires NanoId.DefaultLength <= |draws| && NanoId.ValidDraws(draws)
    ensures HasUpload(UploadFinished(UploadStarted(c), Upload.UploadFile(fileName, draws, Upload.Accepted, Upload.Accepted)))
  {
    var url := Upload.UploadFile(fileName, draws, Upload.Accepted, Upload.Accepted).value;
    assert url[..|Upload.AssetHost|] == Upload.AssetHost;
  }

  /** The session's job settles with its `mediaUrl` after three queries. */
  lemma ScriptedRunResolves(responses: seq<Jobs.Response>)
    requires Jobs.MaxPolls <= |responses|
    requires responses[0] == Jobs.Body(StatusData("queued"))
    requires responses[1] == Jobs.Body(StatusData("processing"))
    requires responses[2] == Jobs.Body(Resolve.WithResult(Resolve.ResultObject(Some(JStr("https://x/y.png")), None)))
    ensures GenerateResult(Jobs.Body(JObj(map["jobId" := JStr("job-1")])), responses) == Ok(JStr("https://x/y.png"))
  {
    assert Jobs.Classify(responses[0]).Pending?;
    assert Jobs.Classify(responses[1]).Pending?;
    assert Jobs.PendingBefore(responses, 2);
    var data := Resolve.WithResult(Resolve.ResultObject(Some(JStr("https://x/y.png")), None));
    assert Jobs.Classify(responses[2]) == Jobs.Done(data);
    Jobs.PollStopsAtFirstVerdict(responses, 2);
    var obj := Resolve.ResultObject(Some(JStr("https://x/y.png")), None);
    assert Member(Some(data), "result") == Some(obj);
    Resolve.MediaUrlTakesPrecedence(data, obj.fields);
  }

  class PipelineController {
    var uploadedUrl: Option<string>
    var generateDisabled: bool
    var generateLabel: string
    var resetDisabled: bool
    var downloadDisabled: bool
    var downloadLabel: string
    var downloadUrl: Option<string>

    function Snapshot(): Controls
      reads this
    {
      Controls(uploadedUrl, generateDisabled, generateLabel, resetDisabled, downloadDisabled, downloadLabel, downloadUrl)
    }

    /** The page's buttons as the markup sets them up; no upload is current yet. */
    constructor (markup: Controls)
      ensures Snapshot() == markup.(uploadedUrl := None)
    {
      uploadedUrl := None;
      generateDisabled, generateLabel := markup.generateDisabled, markup.generateLabel;
      resetDisabled := markup.resetDisabled;
      downloadDisabled, downloadLabel, downloadUrl := markup.downloadDisabled, markup.downloadLabel, markup.downloadUrl;
    }

    method ShowError()
      modifies this
      ensures Snapshot() == ErrorShown(old(Snapshot()))
    {
      generateDisabled := false;
      generateLabel := GenerateLabel;
    }

    method UpdateStatus(text: string)
      modifies this
      ensures Snapshot() == StatusShown(old(Snapshot()), text)
    {
      if generateDisabled {
        generateLabel := text;
      }
    }

    method StartFileSelect()
      modifies this
      ensures Snapshot() == UploadStarted(old(Snapshot()))
    {
      generateDisabled := true;
      generateLabel := UploadingLabel;
    }

    method FinishFileSelect(r: Result<string, Upload.UploadError>)
      modifies this
      ensures Snapshot() == UploadFinished(old(Snapshot()), r)
    {
      match r
      case Ok(url) =>
        uploadedUrl := Some(url);
        generateDisabled := false;
        generateLabel := GenerateLabel;
        resetDisabled := false;
      case Err(_) =>
        ShowError();
    }

    /** `handleFileSelect(file)` when nothing else happens while the upload is awaited. */
    method HandleFileSelect(fileName: string, draws: seq<nat>, signReply: Upload.Reply, putReply: Upload.Reply)
      requires NanoId.DefaultLength <= |draws| && NanoId.ValidDraws(draws)
      modifies this
      ensures Snapshot() == UploadFinished(UploadStarted(old(Snapshot())), Upload.UploadFile(fileName, draws, signReply, putReply))
    {
      StartFileSelect();
      FinishFileSelect(Upload.UploadFile(fileName, draws, signReply, putReply));
    }

    /** `handleGenerate` up to the submission; the request it sends, if it went ahead. */
    method StartGenerate() returns (request: Option<Jobs.JobRequest>)
      modifies this
      ensures request == (if HasUpload(old(Snapshot())) then Some(Jobs.JobRequestFor(old(uploadedUrl).value)) else None)
      ensures Snapshot() == if HasUpload(old(Snapshot())) then GenerateStarted(old(Snapshot())) else old(Snapshot())
    {
      if !HasUpload(Snapshot()) {
        return None;
      }
      UpdateStatus(SubmittingLabel);
      generateDisabled := true;
      resetDisabled := true;
      request := Some(Jobs.JobRequestFor(uploadedUrl.value));
    }

    method FinishGenerate(r: Result<Json, GenerateError>)
      modifies this
      ensures Snapshot() == GenerateFinished(old(Snapshot()), r)
    {
      match r
      case Ok(url) =>
        downloadUrl := Some(JsString(url));
        downloadDisabled := false;
        generateLabel := GenerateLabel;
        generateDisabled := false;
        resetDisabled := false;
      case Err(_) =>
        ShowError();
    }

    /**
     * `handleGenerate` when nothing else happens while the job is awaited.
     * The progress labels the polling loop shows are applied in order.
     */
    method HandleGenerate(submitReply: Jobs.Response, responses: seq<Jobs.Response>) returns (request: Option<Jobs.JobRequest>)
      requires Jobs.MaxPolls <= |responses|
      modifies this
      ensures request == (if HasUpload(old(Snapshot())) then Some(Jobs.JobRequestFor(old(uploadedUrl).value)) else None)
      ensures Snapshot() == GenerateRun(old(Snapshot()), submitReply, responses)
    {
      request := StartGenerate();
      if request.None? {
        return;
      }
      ghost var started := Snapshot();
      var submitted := Jobs.ReadJson(submitReply);
      if submitted.Err? {
        FinishGenerate(Err(SubmitFailed(submitted.error)));
        return;
      }
      UpdateStatus(QueuedLabel);
      if submitted.value.JNull? {
        FinishGenerate(Err(SubmitFailed(Jobs.NullBody)));
        return;
      }
      var outcome, progress := Jobs.PollJobStatus(responses);
      for k := 0 to |progress|
        invariant Snapshot().(generateLabel := started.generateLabel) == started
      {
        UpdateStatus(progress[k]);
      }
      if outcome.Raised? {
        FinishGenerate(Err(PollFailed(outcome.error)));
        return;
      }
      var url := Resolve.ResolveResultUrl(outcome.data);
      if url.Err? {
        FinishGenerate(Err(Malformed(url.error)));
        return;
      }
      FinishGenerate(Ok(url.value));
    }

    method Reset()
      modifies this
      ensures Snapshot() == ResetDone(old(Snapshot()))
    {
      uploadedUrl := None;
      generateDisabled := true;
      generateLabel := GenerateLabel;
      resetDisabled := true;
      downloadDisabled := true;
      downloadUrl := None;
    }

    /** The download handler up to its first `await`; the URL and label it found, if it went ahead. */
    method StartDownloadClick() returns (url: Option<string>, originalText: string)
      modifies this
      ensures url.Some? <==> HasDownloadUrl(old(Snapshot()))
      ensures url.Some? ==> url.value == old(downloadUrl).value && originalText == old(downloadLabel)
      ensures Snapshot() == if url.Some? then DownloadStarted(old(Snapshot())) else old(Snapshot())
    {
      originalText := downloadLabel;
      if !HasDownloadUrl(Snapshot()) {
        return None, originalText;
      }
      url := downloadUrl;
      downloadLabel := DownloadingLabel;
      downloadDisabled := true;
    }

    /** The download handler's `finally` block. */
    method FinishDownloadClick(originalText: string)
      modifies this
      ensures Snapshot() == DownloadFinished(old(Snapshot()), originalText)
    {
      downloadLabel := originalText;
      downloadDisabled := false;
    }

    /**
     * The download click handler when nothing else runs while it awaits:
     * nothing without a URL; otherwise the label becomes `Downloading...` and
     * the button is disabled while one of the tiers acts, and the `finally`
     * block restores both.
     */
    method HandleDownloadClick(fetch: Download.BlobFetch, imageReady: bool, canvasThrows: bool, blobNull: bool,
                               draws: seq<nat>) returns (action: Option<Download.DownloadAction>)
      requires Download.NameIdLength <= |draws| && NanoId.ValidDraws(draws)
      modifies this
      ensures action.Some? <==> HasDownloadUrl(old(Snapshot()))
      ensures action.Some? ==>
                action.value == Download.ChooseDownload(old(downloadUrl).value, fetch, imageReady, canvasThrows, blobNull, draws)
      ensures Snapshot() == DownloadClicked(old(Snapshot()))
    {
      var url, originalText := StartDownloadClick();
      if url.None? {
        return None;
      }
      action := Some(Download.ChooseDownload(url.value, fetch, imageReady, canvasThrows, blobNull, draws));
      FinishDownloadClick(originalText);
    }
  }
}

=== FILE: download.dfy ===
/**
 * The download button's click handler, seen as a decision: the file name
 * (extension inferred from the content type and the URL), and which of the
 * three delivery tiers ends up acting. Each browser call (`fetch`, the blob,
 * the canvas, `toBlob`) is reduced to how it ended.
 */
module Download {
  import opened Wrappers
  import opened Js
  import NanoId
  import Upload

  const FileNamePrefix: string := "jokerfilter_"
  const NameIdLength: nat := 8

  /**
   * `png` when the content type contains `png` (case-sensitively) or the URL
   * matches `/\.png/i`; otherwise `webp` under the same two tests; otherwise
   * `jpg`. A missing content-type header counts as the empty string.
   */
  function InferExtension(contentType: Option<string>, url: string): (ext: string)
    ensures ext in {"png", "webp", "jpg"}
    ensures ext == "png" <==> Names(contentType, url, "png")
    ensures ext == "webp" <==> !Names(contentType, url, "png") && Names(contentType, url, "webp")
  {
    if Names(contentType, url, "png") then "png"
    else if Names(contentType, url, "webp") then "webp"
    else "jpg"
  }

  /**
   * Evidence for a format: the content type (the empty string when the header
   * is missing) contains its name, or the URL contains a dot and its name in
   * any letter case.
   */
  predicate Names(contentType: Option<string>, url: string, format: string) {
    var ct := if contentType.Some? then contentType.value else "";
    Contains(ct, format) || MatchesIgnoringCase(url, "." + format)
  }

  /** `png` wins over `webp` when both tests hold. */
  lemma PngTakesPrecedence(contentType: Option<string>, url: string)
    requires MatchesIgnoringCase(url, ".png") || (contentType.Some? && Contains(contentType.value, "png"))
    ensures InferExtension(contentType, url) == "png"
  {
    assert "." + "png" == ".png" && "." + "webp" == ".webp";
  }

  /** `jpg` is chosen exactly when neither `png` nor `webp` is found in the content type or the URL. */
  lemma JpgOnlyWithoutEvidence(contentType: Option<string>, url: string)
    ensures var ct := if contentType.Some? then contentType.value else "";
            InferExtension(contentType, url) == "jpg" <==>
              !Contains(ct, "png") && !Contains(ct, "webp") &&
              !MatchesIgnoringCase(url, ".png") && !MatchesIgnoringCase(url, ".webp")
  {
    assert "." + "png" == ".png" && "." + "webp" == ".webp";
  }

  /**
   * Without a content type, a URL ending in `.png` or `.webp`, in any letter
   * case, decides the extension (a `.webp` URL that mentions `.png` earlier
   * still gets `png`).
   */
  lemma ExtensionFromUrlSuffix(url: string, ext: string)
    requires ext == "png" || ext == "webp"
    requires |url| >= |ext| + 1 && ToLower(url[|url| - |ext| - 1..]) == "." + ext
    requires ext == "webp" ==> !MatchesIgnoringCase(url, ".png")
    ensures InferExtension(None, url) == ext
  {
    var i := |url| - |ext| - 1;
    assert ToLower(url)[i..] == ToLower(url[i..]);
    assert OccursAt(ToLower(url), "." + ext, i);
    ContainsAt(ToLower(url), "." + ext, i);
    assert MatchesIgnoringCase(url, "." + ext);
    assert !Contains("", "png") && !Contains("", "webp");
    assert "." + "png" == ".png" && "." + "webp" == ".webp";
    if ext == "png" {
      assert "." + ext == ".png";
    } else {
      assert "." + ext == ".webp";
    }
  }

  /**
   * The content-type test is case-sensitive: with a URL that names neither
   * format, `image/PNG` gives `jpg`.
   */
  lemma ContentTypeTestIsCaseSensitive(url: string)
    requires !MatchesIgnoringCase(url, ".png") && !MatchesIgnoringCase(url, ".webp")
    ensures InferExtension(Some("image/PNG"), url) == "jpg"
  {
    assert "." + "png" == ".png" && "." + "webp" == ".webp";
    NotContained("image/PNG", "png");
    NotContained("image/PNG", "webp");
  }

  /** A string holding none of the first character of `t` does not contain `t`. */
  lemma NotContained(s: string, t: string)
    requires t != [] && t[0] !in s
    ensures !Contains(s, t)
  {
    ContainsIffOccurs(s, t);
  }

  /** `'jokerfilter_' + generateNanoId(8) + '.' + extension`. */
  function DownloadFileName(draws: seq<nat>, ext: string): (name: string)
    requires NameIdLength <= |draws| && NanoId.ValidDraws(draws)
    requires '.' !in ext
    ensures |name| == |FileNamePrefix| + NameIdLength + 1 + |ext|
    ensures name[..|FileNamePrefix|] == FileNamePrefix
    ensures forall k :: |FileNamePrefix| <= k < |FileNamePrefix| + NameIdLength ==> NanoId.IsAlphanumeric(name[k])
    ensures name[|FileNamePrefix|..|FileNamePrefix| + NameIdLength] == NanoId.IdOf(draws[..NameIdLength])
    ensures Upload.AfterLastDot(name) == ext
  {
    var id := NanoId.IdOf(draws[..NameIdLength]);
    NanoId.IdShape(draws[..NameIdLength]);
    Upload.SuffixAfterDot(FileNamePrefix + id, ext);
    FileNamePrefix + id + "." + ext
  }

  /** How tier 1 (fetch the URL as a blob) ended. */
  datatype BlobFetch = FetchFailed | Fetched(contentType: Option<string>)

  /** What the click finally did. */
  datatype DownloadAction =
    | SavedBlob(fileName: string)        // tier 1: save the fetched blob
    | SavedCanvasPng(fileName: string)   // tier 2: save the canvas re-encoded as PNG
    | AlertedOnly                        // tier 2 produced no blob: only an alert
    | OpenedTab(url: string)             // tier 3: open the URL in a new tab

  /**
   * The handler's tiers. Tier 2 runs only when tier 1 failed and the result
   * image is complete with a non-zero natural width; once it has handed the
   * canvas to `toBlob` it returns, so a null blob gives an alert and nothing
   * else. Tier 3 runs when tier 1 failed and tier 2 was skipped or threw.
   */
  function ChooseDownload(url: string, fetch: BlobFetch, imageReady: bool, canvasThrows: bool, blobNull: bool,
                          draws: seq<nat>): (a: DownloadAction)
    requires NameIdLength <= |draws| && NanoId.ValidDraws(draws)
    ensures a.SavedBlob? <==> fetch.Fetched?
    ensures a.SavedBlob? ==> a.fileName == DownloadFileName(draws, InferExtension(fetch.contentType, url))
    ensures a.SavedBlob? ==> Upload.AfterLastDot(a.fileName) == InferExtension(fetch.contentType, url)
    ensures a.SavedCanvasPng? <==> fetch.FetchFailed? && imageReady && !canvasThrows && !blobNull
    ensures a.SavedCanvasPng? ==> a.fileName == DownloadFileName(draws, "png")
    ensures a.SavedCanvasPng? ==> Upload.AfterLastDot(a.fileName) == "png"
    ensures a.AlertedOnly? <==> fetch.FetchFailed? && imageReady && !canvasThrows && blobNull
    ensures a.OpenedTab? <==> fetch.FetchFailed? && (!imageReady || canvasThrows)
    ensures a.OpenedTab? ==> a.url == url
  {
    match fetch
    case Fetched(contentType) => SavedBlob(DownloadFileName(draws, InferExtension(contentType, url)))
    case FetchFailed =>
      if imageReady && !canvasThrows then
        if blobNull then AlertedOnly else SavedCanvasPng(DownloadFileName(draws, "png"))
      else OpenedTab(url)
  }

  /** The canvas tier never opens a tab, and once tier 1 worked the later tiers' conditions are irrelevant. */
  lemma TiersAreOrdered(url: string, contentType: Option<string>, r1: bool, t1: bool, n1: bool, r2: bool, t2: bool, n2: bool,
                        draws: seq<nat>)
    requires NameIdLength <= |draws| && NanoId.ValidDraws(draws)
    ensures ChooseDownload(url, Fetched(contentType), r1, t1, n1, draws) == ChooseDownload(url, Fetched(contentType), r2, t2, n2, draws)
    ensures r1 && !t1 ==> !ChooseDownload(url, FetchFailed, r1, t1, n1, draws).OpenedTab?
  {
  }
}

=== FILE: jobs.dfy ===
/**
 * `submitImageGenJob` and `pollJobStatus`: the fixed request that starts a
 * rendering job, and the bounded polling loop that reads the job's status
 * until it completes, fails, or the budget of 60 queries runs out. The
 * responses the service gives, one per query, are a script supplied by the
 * caller; the 2000 ms wait between queries is not modelled.
 */
module Jobs {
  import opened Wrappers
  import opened Js

  const UserId: string := "DObRu1vyStbUynoQmTcHBlhs55z2"
  const MaxPolls: nat := 60
  const GenericJobFailure: string := "Job processing failed"

  /** The JSON body of the POST that starts a job. */
  datatype JobRequest = JobRequest(
    model: string,
    toolType: string,
    effectId: string,
    imageUrl: string,
    userId: string,
    removeWatermark: bool,
    isPrivate: bool)

  /** The effect, identity and flags are fixed; only the image URL varies. */
  function JobRequestFor(imageUrl: string): (req: JobRequest)
    ensures req.imageUrl == imageUrl
    ensures req.removeWatermark && req.isPrivate && req.userId == UserId
  {
    JobRequest("image-effects", "image-effects", "pokemonTrainer", imageUrl, UserId, true, true)
  }

  /** Two submissions differ in the image URL and in nothing else. */
  lemma FixedJobConfiguration(a: string, b: string)
    ensures JobRequestFor(a).(imageUrl := b) == JobRequestFor(b)
  {
  }

  /** How one request to the rendering service ended. */
  datatype Response =
    | Unreachable(message: string)   // `fetch` rejected
    | NotOk(statusText: string)      // `!response.ok`
    | Unparsable                     // `response.json()` rejected
    | Body(data: Json)               // a 2xx answer with a JSON body

  /** Why a request to the rendering service threw. */
  datatype RequestError =
    | NetworkFailure(message: string)
    | HttpFailure(statusText: string)
    | BadJson
    | NullBody   // reading a property of a `null` body throws a TypeError

  /**
   * `await fetch(…)`, the `response.ok` check, then `await response.json()`:
   * `submitImageGenJob` on the job submission, and each status query.
   */
  function ReadJson(r: Response): (res: Result<Json, RequestError>)
    ensures res.Ok? <==> r.Body?
  {
    match r
    case Unreachable(m) => Err(NetworkFailure(m))
    case NotOk(t) => Err(HttpFailure(t))
    case Unparsable => Err(BadJson)
    case Body(d) => Ok(d)
  }

  /** Why polling threw. */
  datatype PollError =
    | RequestFailed(cause: RequestError)
    | JobFailed(message: string)
    | TimedOut

  /** What one status response means to the loop. */
  datatype Verdict = Pending | Done(data: Json) | Fail(error: PollError)

  /** How polling ended, and how many status queries it made. */
  datatype PollOutcome = Completed(data: Json, queries: nat) | Raised(error: PollError, queries: nat)

  /**
   * One iteration of the loop: a failed request throws; status `completed`
   * returns the data; `failed` or `error` throws `data.error`, or the generic
   * message when that is falsy; any other status, a missing one included,
   * means the job is still running.
   */
  function Classify(r: Response): (v: Verdict)
    ensures v.Done? <==> r.Body? && Member(Some(r.data), "status") == Some(JStr("completed"))
    ensures v.Done? ==> v.data == r.data
    ensures (v.Fail? && v.error.RequestFailed?) <==> !r.Body? || r.data.JNull?
    ensures (v.Fail? && v.error.JobFailed?) <==>
              r.Body? && Member(Some(r.data), "status") in {Some(JStr("failed")), Some(JStr("error"))}
    ensures v.Fail? ==> !v.error.TimedOut?
  {
    match ReadJson(r)
    case Err(e) => Fail(RequestFailed(e))
    case Ok(data) =>
      if data.JNull? then Fail(RequestFailed(NullBody))
      else
        var status := Member(Some(data), "status");
        if status == Some(JStr("completed")) then Done(data)
        else if status == Some(JStr("failed")) || status == Some(JStr("error")) then
          var reason := Member(Some(data), "error");
          Fail(JobFailed(if Truthy(reason) then JsString(reason.value) else GenericJobFailure))
        else Pending
  }

  /**
   * The verdict on each kind of reply: a rejected `fetch`, a non-OK status,
   * an unparsable body and a `null` body all throw; status `completed`
   * returns the whole data.
   */
  lemma ClassifyVerdicts(r: Response)
    ensures r.Unreachable? ==> Classify(r) == Fail(RequestFailed(NetworkFailure(r.message)))
    ensures r.NotOk? ==> Classify(r) == Fail(RequestFailed(HttpFailure(r.statusText)))
    ensures r.Unparsable? ==> Classify(r) == Fail(RequestFailed(BadJson))
    ensures r == Body(JNull) ==> Classify(r) == Fail(RequestFailed(NullBody))
    ensures r.Body? && Member(Some(r.data), "status") == Some(JStr("completed")) ==> Classify(r) == Done(r.data)
  {
  }

  /** A reported failure carries `data.error` as its message, or the generic one when that is falsy. */
  lemma RemoteFailureMessage(fields: map<string, Json>)
    requires "status" in fields && fields["status"] in {JStr("failed"), JStr("error")}
    ensures "error" in fields && Truthy(Some(fields["error"])) ==>
              Classify(Body(JObj(fields))) == Fail(JobFailed(JsString(fields["error"])))
    ensures !("error" in fields && Truthy(Some(fields["error"]))) ==>
              Classify(Body(JObj(fields))) == Fail(JobFailed(GenericJobFailure))
  {
  }

  /**
   * Any status other than the three terminal ones, an unknown one or none at
   * all, keeps the loop polling.
   */
  lemma UnrecognisedStatusKeepsPolling(fields: map<string, Json>)
    requires "status" !in fields || fields["status"] !in {JStr("completed"), JStr("failed"), JStr("error")}
    ensures Classify(Body(JObj(fields))).Pending?
  {
  }

  /** The loop's outcome once `polls` queries were answered as still running. */
  function PollFrom(responses: seq<Response>, polls: nat): (o: PollOutcome)
    requires polls <= MaxPolls <= |responses|
    ensures polls <= o.queries <= MaxPolls
    ensures polls < MaxPolls ==> polls < o.queries
    ensures o == Raised(TimedOut, o.queries) ==> o.queries == MaxPolls
    decreases MaxPolls - polls
  {
    if polls == MaxPolls then Raised(TimedOut, MaxPolls)
    else
      match Classify(responses[polls])
      case Done(data) => Completed(data, polls + 1)
      case Fail(e) => Raised(e, polls + 1)
      case Pending => PollFrom(responses, polls + 1)
  }

  /** `pollJobStatus(jobId)` against a script of status responses, one per query. */
  function Poll(responses: seq<Response>): (o: PollOutcome)
    requires MaxPolls <= |responses|
    ensures 1 <= o.queries <= MaxPolls
    ensures o.Raised? && o.error.TimedOut? ==> o.queries == MaxPolls
  {
    PollFrom(responses, 0)
  }

  /** The label shown after the k-th still-running response. */
  function ProgressLabel(k: nat): string {
    "PROCESSING... (" + NatToString(k) + ")"
  }

  /** Different attempt numbers are shown as different labels. */
  lemma ProgressLabelInjective(a: nat, b: nat)
    ensures ProgressLabel(a) == ProgressLabel(b) ==> a == b
  {
    if ProgressLabel(a) == ProgressLabel(b) {
      var prefix := "PROCESSING... (";
      var la, lb := ProgressLabel(a), ProgressLabel(b);
      assert NatToString(a) == la[|prefix|..|la| - 1];
      assert NatToString(b) == lb[|prefix|..|lb| - 1];
      NatToStringRoundTrip(a);
      NatToStringRoundTrip(b);
    }
  }

  /** The labels `PROCESSING... (1)` up to `PROCESSING... (count)`, in order, no two alike. */
  function ProgressLabels(count: nat): (labels: seq<string>)
    ensures |labels| == count
    ensures forall k :: 0 <= k < count ==> labels[k] == ProgressLabel(k + 1)
    ensures forall i, j :: 0 <= i < j < count ==> labels[i] != labels[j]
  {
    var labels := seq(count, k requires 0 <= k < count => ProgressLabel(k + 1));
    assert forall i, j :: 0 <= i < j < count ==> labels[i] != labels[j] by {
      forall i, j | 0 <= i < j < count
        ensures labels[i] != labels[j]
      {
        ProgressLabelInjective(i + 1, j + 1);
      }
    }
    labels
  }

  /** How many progress notifications a run emitted: one per still-running response. */
  function Notices(o: PollOutcome): nat {
    if o.Raised? && o.error.TimedOut? then MaxPolls else if o.queries == 0 then 0 else o.queries - 1
  }

  /** The polling loop, with the progress labels it shows. */
  method PollJobStatus(responses: seq<Response>) returns (outcome: PollOutcome, progress: seq<string>)
    requires MaxPolls <= |responses|
    ensures outcome == Poll(responses)
    ensures progress == ProgressLabels(Notices(outcome))
  {
    var polls := 0;
    progress := [];
    while polls < MaxPolls
      invariant polls <= MaxPolls
      invariant PollFrom(responses, polls) == Poll(responses)
      invariant progress == ProgressLabels(polls)
    {
      match Classify(responses[polls])
      case Done(data) =>
        outcome := Completed(data, polls + 1);
        return;
      case Fail(e) =>
        outcome := Raised(e, polls + 1);
        return;
      case Pending =>
        progress := progress + [ProgressLabel(polls + 1)];
        polls := polls + 1;
    }
    outcome := Raised(TimedOut, MaxPolls);
  }

  /** Responses before position `k` all said the job was still running. */
  predicate PendingBefore(responses: seq<Response>, k: nat)
    requires k <= |responses|
  {
    forall j :: 0 <= j < k ==> Classify(responses[j]).Pending?
  }

  /** Still-running responses are skipped over one by one. */
  lemma {:induction false} PollSkipsPending(responses: seq<Response>, i: nat, k: nat)
    requires i <= k <= MaxPolls <= |responses|
    requires PendingBefore(responses, k)
    ensures PollFrom(responses, i) == PollFrom(responses, k)
    decreases k - i
  {
    if i < k {
      PollSkipsPending(responses, i + 1, k);
    }
  }

  /**
   * Polling stops at the first response that is not "still running": it
   * returns that response's data if it reports completion, throws its error
   * otherwise, and has then made exactly k + 1 queries.
   */
  lemma PollStopsAtFirstVerdict(responses: seq<Response>, k: nat)
    requires k < MaxPolls <= |responses|
    requires PendingBefore(responses, k) && !Classify(responses[k]).Pending?
    ensures Classify(responses[k]).Done? ==> Poll(responses) == Completed(Classify(responses[k]).data, k + 1)
    ensures Classify(responses[k]).Fail? ==> Poll(responses) == Raised(Classify(responses[k]).error, k + 1)
    ensures var r := responses[k];
            r.Body? && Member(Some(r.data), "status") == Some(JStr("completed")) ==> Poll(responses) == Completed(r.data, k + 1)
    ensures var r := responses[k];
            !r.Body? ==> Poll(responses) == Raised(RequestFailed(ReadJson(r).error), k + 1)
    ensures responses[k].NotOk? ==> Poll(responses) == Raised(RequestFailed(HttpFailure(responses[k].statusText)), k + 1)
  {
    PollSkipsPending(responses, 0, k);
  }

  /** Sixty still-running responses in a row end in a timeout after sixty queries. */
  lemma PollTimesOut(responses: seq<Response>)
    requires MaxPolls <= |responses| && PendingBefore(responses, MaxPolls)
    ensures Poll(responses) == Raised(TimedOut, MaxPolls)
  {
    PollSkipsPending(responses, 0, MaxPolls);
  }

  /**
   * Conversely, whatever polling ends with, every response before the last
   * query said "still running", and the last query decided the outcome; a
   * timeout therefore never comes before the sixtieth still-running response.
   */
  lemma {:induction false} PollOutcomeDecidedByLastQuery(responses: seq<Response>, i: nat)
    requires i <= MaxPolls <= |responses|
    ensures var o := PollFrom(responses, i);
            && (forall j :: i <= j < o.queries - 1 ==> Classify(responses[j]).Pending?)
            && (o.Raised? && o.error.TimedOut? ==>
                  forall j :: i <= j < MaxPolls ==> Classify(responses[j]).Pending?)
            && (o.Completed? ==> Classify(responses[o.queries - 1]) == Done(o.data))
            && (o.Raised? && !o.error.TimedOut? ==> Classify(responses[o.queries - 1]) == Fail(o.error))
    decreases MaxPolls - i
  {
    if i < MaxPolls && Classify(responses[i]).Pending? {
      PollOutcomeDecidedByLastQuery(responses, i + 1);
    }
  }

  /** A timeout is raised only after all sixty responses said "still running". */
  lemma TimeoutOnlyAfterSixtyPending(responses: seq<Response>)
    requires MaxPolls <= |responses|
    requires Poll(responses).Raised? && Poll(responses).error.TimedOut?
    ensures PendingBefore(responses, MaxPolls) && Poll(responses).queries == MaxPolls
  {
    PollOutcomeDecidedByLastQuery(responses, 0);
  }

  /**
   * No query is made after the deciding one: responses past that point do not
   * influence the outcome.
   */
  lemma PollIgnoresLaterResponses(responses: seq<Response>, other: seq<Response>)
    requires MaxPolls <= |responses| && MaxPolls <= |other|
    requires var q := Poll(responses).queries; other[..q] == responses[..q]
    ensures Poll(other) == Poll(responses)
  {
    var q := Poll(responses).queries;
    assert forall j :: 0 <= j < q ==> other[j] == other[..q][j];
    PollFromIgnoresLater(responses, other, 0);
  }

  /** From query `i` on, only the responses up to the deciding query are read. */
  lemma {:induction false} PollFromIgnoresLater(responses: seq<Response>, other: seq<Response>, i: nat)
    requires i <= MaxPolls <= |responses| && MaxPolls <= |other|
    requires forall j :: i <= j < PollFrom(responses, i).queries ==> other[j] == responses[j]
    ensures PollFrom(other, i) == PollFrom(responses, i)
    decreases MaxPolls - i
  {
    if i < MaxPolls {
      assert other[i] == responses[i];
      if Classify(responses[i]).Pending? {
        PollFromIgnoresLater(responses, other, i + 1);
      }
    }
  }
}

=== FILE: js.dfy ===
/**
 * The slice of JavaScript value semantics the pipeline depends on: values
 * parsed from JSON, truthiness, `||`, optional member reads, `String(v)`,
 * `String.prototype.includes` and an ASCII-case-insensitive regular
 * expression match.
 */
module Js {
  import opened Wrappers

  /** A value produced by `response.json()`. JSON numbers are integral here. */
  datatype Json =
    | JNull
    | JBool(b: bool)
    | JNum(n: int)
    | JStr(s: string)
    | JArr(items: seq<Json>)
    | JObj(fields: map<string, Json>)

  /** A JavaScript value read out of JSON; `None` is `undefined`. */
  type Value = Option<Json>

  /** JavaScript truthiness: `undefined`, `null`, `false`, `0` and `""` are falsy. */
  predicate Truthy(v: Value) {
    match v
    case None => false
    case Some(JNull) => false
    case Some(JBool(b)) => b
    case Some(JNum(n)) => n != 0
    case Some(JStr(s)) => s != ""
    case Some(_) => true
  }

  /** `a || b`: `a` when it is truthy, otherwise `b`. */
  function Or(a: Value, b: Value): (r: Value)
    ensures Truthy(a) ==> r == a
    ensures !Truthy(a) ==> r == b
    ensures Truthy(r) <==> Truthy(a) || Truthy(b)
  {
    if Truthy(a) then a else b
  }

  /**
   * `v?.key` for a key no built-in prototype defines: the own field of a
   * JSON object, and `undefined` for every other value.
   */
  function Member(v: Value, key: string): Value {
    if v.Some? && v.value.JObj? && key in v.value.fields then Some(v.value.fields[key]) else None
  }

  function DigitChar(d: nat): (c: char)
    requires d < 10
    ensures '0' <= c <= '9' && DigitValue(c) == d
  {
    "0123456789"[d]
  }

  function DigitValue(c: char): int {
    c as int - '0' as int
  }

  /** The decimal numeral of `n`, as `String(n)` writes it below 10^21: digits only, no leading zero. */
  function NatToString(n: nat): (s: string)
    ensures 1 <= |s|
    ensures forall i :: 0 <= i < |s| ==> '0' <= s[i] <= '9'
    ensures n == 0 || s[0] != '0'
    decreases n
  {
    if n < 10 then [DigitChar(n)] else NatToString(n / 10) + [DigitChar(n % 10)]
  }

  /** The value of a string of decimal digits. */
  function DecimalValue(s: string): int
    decreases |s|
  {
    if s == [] then 0 else 10 * DecimalValue(s[..|s| - 1]) + DigitValue(s[|s| - 1])
  }

  /** Reading back the numeral gives the number: progress counts are written unambiguously. */
  lemma {:induction false} NatToStringRoundTrip(n: nat)
    ensures DecimalValue(NatToString(n)) == n
    decreases n
  {
    var s := NatToString(n);
    if n >= 10 {
      NatToStringRoundTrip(n / 10);
      assert s[..|s| - 1] == NatToString(n / 10);
    }
  }

  function IntToString(i: int): string {
    if i < 0 then "-" + NatToString(-i) else NatToString(i)
  }

  /** `parts.join(',')`. */
  function JoinComma(parts: seq<string>): string
    decreases |parts|
  {
    if |parts| == 0 then ""
    else if |parts| == 1 then parts[0]
    else parts[0] + "," + JoinComma(parts[1..])
  }

  /**
   * `String(v)` for a JSON value: an array joins its elements with commas,
   * writing `null` elements as the empty string; any object is "[object Object]".
   */
  function JsString(j: Json): string
    decreases j
  {
    match j
    case JNull => "null"
    case JBool(b) => if b then "true" else "false"
    case JNum(n) => IntToString(n)
    case JStr(s) => s
    case JArr(items) =>
      JoinComma(seq(|items|, i requires 0 <= i < |items| => if items[i].JNull? then "" else JsString(items[i])))
    case JObj(_) => "[object Object]"
  }

  /** `s.includes(t)`. */
  predicate Contains(s: string, t: string)
    decreases |s|
  {
    |t| <= |s| && (s[..|t|] == t || Contains(s[1..], t))
  }

  /** `t` occurs in `s` starting at position `i`. */
  predicate OccursAt(s: string, t: string, i: int) {
    0 <= i && i + |t| <= |s| && s[i..i + |t|] == t
  }

  /** `s.includes(t)` holds exactly when `t` occurs at some position of `s`. */
  lemma {:induction false} ContainsIffOccurs(s: string, t: string)
    ensures Contains(s, t) <==> exists i :: OccursAt(s, t, i)
    decreases |s|
  {
    if |t| <= |s| && s[..|t|] != t {
      ContainsIffOccurs(s[1..], t);
      if Contains(s[1..], t) {
        var i :| OccursAt(s[1..], t, i);
        assert s[i + 1..i + 1 + |t|] == s[1..][i..i + |t|];
        assert OccursAt(s, t, i + 1);
      }
      if exists i :: OccursAt(s, t, i) {
        var i :| OccursAt(s, t, i);
        assert i != 0;
        assert s[1..][i - 1..i - 1 + |t|] == s[i..i + |t|];
        assert OccursAt(s[1..], t, i - 1);
      }
    } else if |t| <= |s| {
      assert OccursAt(s, t, 0);
    }
  }

  /** An occurrence of `t` at position `i` makes `s.includes(t)` hold. */
  lemma ContainsAt(s: string, t: string, i: int)
    requires OccursAt(s, t, i)
    ensures Contains(s, t)
  {
    ContainsIffOccurs(s, t);
  }

  /** ASCII lower-casing, the folding a non-Unicode `/…/i` regular expression applies to ASCII letters. */
  function LowerChar(c: char): char {
    if 'A' <= c <= 'Z' then (c as int - 'A' as int + 'a' as int) as char else c
  }

  function ToLower(s: string): (r: string)
    ensures |r| == |s|
    ensures forall i :: 0 <= i < |s| ==> r[i] == LowerChar(s[i])
  {
    seq(|s|, i requires 0 <= i < |s| => LowerChar(s[i]))
  }

  /**
   * `s.match(/p/i)` is truthy, for a pattern `p` made of lower-case letters
   * and escaped dots. A non-ASCII character never folds onto an ASCII letter
   * under a non-Unicode `/i`, so folding ASCII letters alone is exact here.
   */
  predicate MatchesIgnoringCase(s: string, p: string) {
    Contains(ToLower(s), p)
  }

  /** Case-insensitive matching finds `t` however its letters are cased in `s`. */
  lemma ContainsFolds(s: string, t: string)
    requires Contains(s, t)
    ensures Contains(ToLower(s), ToLower(t))
  {
    ContainsIffOccurs(s, t);
    var i :| OccursAt(s, t, i);
    assert ToLower(s)[i..i + |t|] == ToLower(t);
    ContainsAt(ToLower(s), ToLower(t), i);
  }
}

=== FILE: nanoid.dfy ===
/**
 * `generateNanoId(length)`: a random identifier of `length` characters, each
 * picked from a 62-symbol alphanumeric alphabet. The randomness
 * (`Math.floor(Math.random() * 62)`) is supplied by the caller as a sequence of
 * draws, one per character, each in [0, 62).
 */
module NanoId {

  /** The i-th symbol of the alphabet: upper-case letters, then lower-case letters, then digits. */
  function AlphabetChar(i: nat): (c: char)
    requires i < 62
  {
    if i < 26 then (('A' as int) + i) as char
    else if i < 52 then (('a' as int) + i - 26) as char
    else (('0' as int) + i - 52) as char
  }

  const Uppercase: string := "ABCDEFGHIJKLMNOPQRSTUVWXYZ"
  const Lowercase: string := "abcdefghijklmnopqrstuvwxyz"
  const Digits: string := "0123456789"

  /** The 62-character literal of the page script, written as its three runs. */
  const Alphabet: string := Uppercase + Lowercase + Digits

  /** Identifiers for upload keys are 21 characters long. */
  const DefaultLength: nat := 21

  predicate IsAlphanumeric(c: char) {
    'A' <= c <= 'Z' || 'a' <= c <= 'z' || '0' <= c <= '9'
  }

  /** Position by position, the alphabet is the upper-case letters, the lower-case letters, then the digits. */
  lemma AlphabetChars()
    ensures |Alphabet| == 62
    ensures forall i :: 0 <= i < 62 ==> Alphabet[i] == AlphabetChar(i)
  {
    forall k | 0 <= k < 26 ensures Uppercase[k] == AlphabetChar(k) && Lowercase[k] == AlphabetChar(k + 26) {
      assert k == 0 || k == 1 || k == 2 || k == 3 || k == 4 || k == 5 || k == 6 || k == 7 || k == 8 || k == 9
         || k == 10 || k == 11 || k == 12 || k == 13 || k == 14 || k == 15 || k == 16 || k == 17 || k == 18 || k == 19
         || k == 20 || k == 21 || k == 22 || k == 23 || k == 24 || k == 25;
    }
    forall k | 0 <= k < 10 ensures Digits[k] == AlphabetChar(k + 52) {
      assert k == 0 || k == 1 || k == 2 || k == 3 || k == 4 || k == 5 || k == 6 || k == 7 || k == 8 || k == 9;
    }
    forall i | 0 <= i < 62 ensures Alphabet[i] == AlphabetChar(i) {
      if i < 26 {
        assert Alphabet[i] == Uppercase[i];
      } else if i < 52 {
        assert Alphabet[i] == Lowercase[i - 26];
      } else {
        assert Alphabet[i] == Digits[i - 52];
      }
    }
  }

  /** The alphabet holds exactly the alphanumeric characters, each once. */
  lemma AlphabetIsAlphanumeric()
    ensures |Alphabet| == 62
    ensures forall c :: c in Alphabet <==> IsAlphanumeric(c)
    ensures forall i, j :: 0 <= i < j < 62 ==> Alphabet[i] != Alphabet[j]
  {
    AlphabetChars();
    forall c | IsAlphanumeric(c) ensures c in Alphabet {
      var i := if 'A' <= c <= 'Z' then c as int - 'A' as int
               else if 'a' <= c <= 'z' then c as int - 'a' as int + 26
               else c as int - '0' as int + 52;
      assert Alphabet[i] == c;
    }
  }

  /** Every draw picks a position of the alphabet. */
  predicate ValidDraws(draws: seq<nat>) {
    forall k :: 0 <= k < |draws| ==> draws[k] < 62
  }

  /** The identifier spelt by a sequence of draws, one character per draw. */
  function IdOf(draws: seq<nat>): (id: string)
    requires ValidDraws(draws)
  {
    seq(|draws|, k requires 0 <= k < |draws| => Alphabet[draws[k]])
  }

  /** The loop of `generateNanoId`: append one alphabet character per iteration. */
  method GenerateNanoId(length: nat, draws: seq<nat>) returns (id: string)
    requires length <= |draws| && ValidDraws(draws)
    ensures |id| == length
    ensures forall k :: 0 <= k < length ==> id[k] == Alphabet[draws[k]]
    ensures id == IdOf(draws[..length])
  {
    id := "";
    for i := 0 to length
      invariant |id| == i
      invariant forall k :: 0 <= k < i ==> id[k] == Alphabet[draws[k]]
    {
      id := id + [Alphabet[draws[i]]];
    }
  }

  /** An identifier has one character per draw, and only alphanumeric characters. */
  lemma IdShape(draws: seq<nat>)
    requires ValidDraws(draws)
    ensures |IdOf(draws)| == |draws|
    ensures forall k :: 0 <= k < |draws| ==> IsAlphanumeric(IdOf(draws)[k])
  {
    AlphabetIsAlphanumeric();
    forall k | 0 <= k < |draws| ensures IsAlphanumeric(IdOf(draws)[k]) {
      assert IdOf(draws)[k] in Alphabet;
    }
  }

  /** Different draws give different identifiers: the alphabet has no repeated symbol. */
  lemma {:induction false} IdOfInjective(a: seq<nat>, b: seq<nat>)
    requires ValidDraws(a) && ValidDraws(b) && |a| == |b|
    requires IdOf(a) == IdOf(b)
    ensures a == b
  {
    AlphabetIsAlphanumeric();
    forall k | 0 <= k < |a| ensures a[k] == b[k] {
      assert IdOf(a)[k] == IdOf(b)[k];
    }
  }
}

=== FILE: resolve.dfy ===
/**
 * The extraction of the result URL from a completed job in `handleGenerate`:
 * the job's `result` is either one object or an array whose first element
 * is used, and the URL is that object's `mediaUrl`, or its `image` when
 * `mediaUrl` is falsy.
 */
module Resolve {
  import opened Wrappers
  import opened Js

  const NoImageUrlMessage: string := "No image URL in response"

  /** `Array.isArray(result) ? result[0] : result`. */
  function ResultItem(result: Value): Value {
    if result.Some? && result.value.JArr? then
      (if result.value.items == [] then None else Some(result.value.items[0]))
    else result
  }

  /**
   * The URL of a completed job's data: `resultItem?.mediaUrl ||
   * resultItem?.image`, and an error when that is falsy.
   */
  function ResolveResultUrl(data: Json): (r: Result<Json, string>)
    ensures r.Ok? ==> Truthy(Some(r.value))
    ensures r.Err? ==> r.error == NoImageUrlMessage
  {
    var item := ResultItem(Member(Some(data), "result"));
    var url := Or(Member(item, "mediaUrl"), Member(item, "image"));
    if Truthy(url) then Ok(url.value) else Err(NoImageUrlMessage)
  }

  /** Completed-job data whose `result` field is `result`. */
  function WithResult(result: Json): Json {
    JObj(map["status" := JStr("completed"), "result" := result])
  }

  /** A result object with the given `mediaUrl` and `image` fields (`None` leaves a field out). */
  function ResultObject(mediaUrl: Value, image: Value): Json {
    var withMedia: map<string, Json> := if mediaUrl.Some? then map["mediaUrl" := mediaUrl.value] else map[];
    JObj(if image.Some? then withMedia["image" := image.value] else withMedia)
  }

  /**
   * Field precedence, for any job data whose `result` is an object, whatever
   * other fields either carries: a truthy `mediaUrl` wins, whatever `image`
   * holds; a falsy one gives way to a truthy `image`; neither truthy is an
   * error.
   */
  lemma MediaUrlTakesPrecedence(data: Json, fields: map<string, Json>)
    requires Member(Some(data), "result") == Some(JObj(fields))
    ensures var mediaUrl, image := Member(Some(JObj(fields)), "mediaUrl"), Member(Some(JObj(fields)), "image");
            && (Truthy(mediaUrl) ==> ResolveResultUrl(data) == Ok(mediaUrl.value))
            && (!Truthy(mediaUrl) && Truthy(image) ==> ResolveResultUrl(data) == Ok(image.value))
            && (!Truthy(mediaUrl) && !Truthy(image) ==> ResolveResultUrl(data) == Err(NoImageUrlMessage))
  {
  }

  /**
   * An array result resolves exactly as job data whose `result` is its first
   * element, unless that element is itself an array: arrays are unwrapped
   * only once.
   */
  lemma ArrayResolvesThroughFirstElement(data: Json, items: seq<Json>, single: Json)
    requires Member(Some(data), "result") == Some(JArr(items)) && items != []
    requires Member(Some(single), "result") == Some(items[0])
    ensures !items[0].JArr? ==> ResolveResultUrl(data) == ResolveResultUrl(single)
    ensures items[0].JArr? ==> ResolveResultUrl(data) == Err(NoImageUrlMessage)
  {
  }

  /** Job data whose `result` is an empty array has no URL. */
  lemma EmptyArrayIsMalformed(data: Json)
    requires Member(Some(data), "result") == Some(JArr([]))
    ensures ResolveResultUrl(data) == Err(NoImageUrlMessage)
  {
  }

  /** Job data without a `result`, or with one that is neither an object nor an array, has no URL. */
  lemma ResultWithoutObjectIsMalformed(data: Json)
    requires var result := Member(Some(data), "result"); !(result.Some? && (result.value.JObj? || result.value.JArr?))
    ensures ResolveResultUrl(data) == Err(NoImageUrlMessage)
  {
  }

  /** Both schemas and both field names yield the same non-empty string URL. */
  lemma EitherSchemaEitherField(url: string, inArray: bool, asMediaUrl: bool)
    requires url != ""
    ensures var obj := if asMediaUrl then ResultObject(Some(JStr(url)), None) else ResultObject(None, Some(JStr(url)));
            ResolveResultUrl(WithResult(if inArray then JArr([obj]) else obj)) == Ok(JStr(url))
  {
    var obj := if asMediaUrl then ResultObject(Some(JStr(url)), None) else ResultObject(None, Some(JStr(url)));
    assert Member(Some(WithResult(obj)), "result") == Some(obj);
    MediaUrlTakesPrecedence(WithResult(obj), obj.fields);
    if inArray {
      assert Member(Some(WithResult(JArr([obj]))), "result") == Some(JArr([obj]));
      ArrayResolvesThroughFirstElement(WithResult(JArr([obj])), [obj], WithResult(obj));
    }
  }
}

=== FILE: upload.dfy ===
/**
 * `uploadFile`: the storage key `media/<id>.<ext>` built from a fresh
 * identifier and the file's extension, the two requests (ask for a signed
 * write URL, then PUT the bytes to it), and the public read URL derived from
 * the key. Each request is reduced to how it ended.
 */
module Upload {
  import opened Wrappers
  import NanoId

  const KeyPrefix: string := "media/"
  const AssetHost: string := "https://assets.dressr.ai/"
  const DefaultExtension: string := "jpg"

  /** How one request ended: a 2xx answer, a non-2xx answer, or a rejected `fetch`. */
  datatype Reply = Accepted | Refused(statusText: string) | Unreachable(message: string)

  /** Why `uploadFile` threw. */
  datatype UploadError =
    | SignedUrlRefused(statusText: string)
    | PutRefused(statusText: string)
    | NetworkFailure(message: string)

  /**
   * `s.split('.').pop()`: the text after the last '.', or all of `s` when it
   * has no '.'. It is the longest suffix of `s` free of dots.
   */
  function AfterLastDot(s: string): (r: string)
    ensures |r| <= |s| && r == s[|s| - |r|..]
    ensures '.' !in r
    ensures |r| == |s| || s[|s| - |r| - 1] == '.'
    decreases |s|
  {
    if s == [] then []
    else if s[|s| - 1] == '.' then []
    else AfterLastDot(s[..|s| - 1]) + [s[|s| - 1]]
  }

  /** `file.name.split('.').pop() || 'jpg'`. */
  function FileExtension(name: string): (ext: string)
    ensures ext != [] && '.' !in ext
    ensures AfterLastDot(name) != [] ==> ext == AfterLastDot(name)
    ensures AfterLastDot(name) == [] ==> ext == DefaultExtension
  {
    var last := AfterLastDot(name);
    if last == [] then DefaultExtension else last
  }

  /** The extension of a name whose last dot is followed by text is that text: `photo.png` gives `png`. */
  lemma ExtensionIsLastSegment(name: string, i: nat)
    requires i + 1 < |name| && name[i] == '.' && '.' !in name[i + 1..]
    ensures FileExtension(name) == name[i + 1..]
  {
    SuffixAfterDot(name[..i], name[i + 1..]);
    assert name[..i] + "." + name[i + 1..] == name;
  }

  /** A name without a dot is its own extension: `split` yields the whole name. */
  lemma NameWithoutDotIsItsOwnExtension(name: string)
    requires name != [] && '.' !in name
    ensures FileExtension(name) == name
  {
  }

  /** `jpg` is chosen only when the name is empty or ends with a dot. */
  lemma DefaultExtensionOnlyForEmptyLastSegment(name: string)
    ensures FileExtension(name) == DefaultExtension <==>
              name == [] || name[|name| - 1] == '.' || AfterLastDot(name) == DefaultExtension
  {
    if name != [] && name[|name| - 1] != '.' {
      assert AfterLastDot(name) != [];
    }
  }

  /** `'media/' + uniqueId + '.' + fileExtension`. */
  function UploadKey(id: string, ext: string): string {
    KeyPrefix + id + "." + ext
  }

  /** `'https://assets.dressr.ai/' + fileName`. */
  function PublicUrl(key: string): string {
    AssetHost + key
  }

  /**
   * `uploadFile(file)`: the identifier is drawn before any request is made;
   * the PUT is attempted only once the signed URL was granted.
   */
  function UploadFile(fileName: string, draws: seq<nat>, signReply: Reply, putReply: Reply): (r: Result<string, UploadError>)
    requires NanoId.DefaultLength <= |draws| && NanoId.ValidDraws(draws)
    ensures r.Ok? <==> signReply.Accepted? && putReply.Accepted?
  {
    var key := UploadKey(NanoId.IdOf(draws[..NanoId.DefaultLength]), FileExtension(fileName));
    match signReply
    case Unreachable(m) => Err(NetworkFailure(m))
    case Refused(t) => Err(SignedUrlRefused(t))
    case Accepted =>
      match putReply
      case Unreachable(m) => Err(NetworkFailure(m))
      case Refused(t) => Err(PutRefused(t))
      case Accepted => Ok(PublicUrl(key))
  }

  /** A refused or unreachable signed-URL request ends the upload: the PUT is never made. */
  lemma SignedUrlFailureSkipsPut(fileName: string, draws: seq<nat>, signReply: Reply, putReply: Reply)
    requires NanoId.DefaultLength <= |draws| && NanoId.ValidDraws(draws)
    requires !signReply.Accepted?
    ensures UploadFile(fileName, draws, signReply, putReply) == UploadFile(fileName, draws, signReply, Accepted)
  {
  }

  /**
   * A successful upload returns `https://assets.dressr.ai/media/`, then 21
   * alphanumeric characters, then a dot and the file's extension, which is
   * also what `split('.').pop()` reads back from the URL.
   */
  lemma UploadedUrlShape(fileName: string, draws: seq<nat>)
    requires NanoId.DefaultLength <= |draws| && NanoId.ValidDraws(draws)
    ensures var url := UploadFile(fileName, draws, Accepted, Accepted).value;
            var n := |AssetHost + KeyPrefix|;
            && url[..n] == AssetHost + KeyPrefix
            && url[n..n + NanoId.DefaultLength] == NanoId.IdOf(draws[..NanoId.DefaultLength])
            && |url| == n + NanoId.DefaultLength + 1 + |FileExtension(fileName)|
            && (forall k :: n <= k < n + NanoId.DefaultLength ==> NanoId.IsAlphanumeric(url[k]))
            && url[n + NanoId.DefaultLength] == '.'
            && AfterLastDot(url) == FileExtension(fileName)
  {
    var id := NanoId.IdOf(draws[..NanoId.DefaultLength]);
    NanoId.IdShape(draws[..NanoId.DefaultLength]);
    PublicUrlShape(id, FileExtension(fileName));
  }

  /** The read URL of a key `media/<id>.<ext>`, taken apart. */
  lemma PublicUrlShape(id: string, ext: string)
    requires '.' !in ext
    requires forall k :: 0 <= k < |id| ==> NanoId.IsAlphanumeric(id[k])
    ensures var url := PublicUrl(UploadKey(id, ext));
            var n := |AssetHost + KeyPrefix|;
            && url[..n] == AssetHost + KeyPrefix
            && url[n..n + |id|] == id
            && |url| == n + |id| + 1 + |ext|
            && (forall k :: n <= k < n + |id| ==> NanoId.IsAlphanumeric(url[k]))
            && url[n + |id|] == '.'
            && AfterLastDot(url) == ext
  {
    var url := PublicUrl(UploadKey(id, ext));
    var head := AssetHost + KeyPrefix + id;
    assert url == head + "." + ext;
    SuffixAfterDot(head, ext);
  }

  /** After a dot, a dot-free tail is exactly what `split('.').pop()` returns. */
  lemma {:induction false} SuffixAfterDot(head: string, tail: string)
    requires '.' !in tail
    ensures AfterLastDot(head + "." + tail) == tail
    decreases |tail|
  {
    var s := head + "." + tail;
    if tail == [] {
      assert s[|s| - 1] == '.';
    } else {
      assert s[..|s| - 1] == head + "." + tail[..|tail| - 1];
      assert tail[|tail| - 1] in tail;
      SuffixAfterDot(head, tail[..|tail| - 1]);
      assert tail[..|tail| - 1] + [tail[|tail| - 1]] == tail;
    }
  }
}

=== FILE: wrappers.dfy ===
/** Option and Result, used for JavaScript's `undefined` and for thrown errors. */
module Wrappers {

  datatype Option<+T> = None | Some(value: T)

  datatype Result<+R, +E> = Ok(value: R) | Err(error: E)
}
